=== FILE: README.md ===
# Action sheet controller — a Dafny model

The site shows dialogs as "action sheets": panels that slide up from the bottom
of the screen over a dimmed backdrop. They can be stacked, and each can be
swiped down to dismiss it. A small controller runs them. It keeps a stack of
the open sheets and offers three entry points: `ActionSheet.open(id)`,
`ActionSheet.close(id)` and `ActionSheet.closeAll()`. It also listens for
declarative `data-sheet-open` / `data-sheet-close` clicks, for the Escape key,
for backdrop clicks and for touch and mouse drags on each panel.

The controller exists in two variants, and this project models both:

- `src/scripts/sheet.js` clones a `<template>` registered under the id. It
  builds a backdrop and a panel for every opening and destroys them on close.
- `public/scripts/sheet.js` toggles a root element that is already in the
  page. It wires the root's listeners only the first time the root is opened,
  guarded by the root's `sheetInitialized` flag.

The model has five modules:

- `Gesture` (`gesture.dfy`) is the swipe-to-close recogniser both variants
  attach to a panel. It covers the handle-only start, the velocity sample with
  its time step clamped to at least one millisecond, the 0.08 damping of
  upward drags, and the release rule "further than 30% of the panel height,
  or further than 40 px while moving faster than 0.5 px/ms".
- `SheetStack` (`sheet_stack.dfy`) is the stack discipline both variants
  share. Ids are looked up the way `findIndex` does and removed the way
  `splice` does. `closeAll`'s top-down snapshot is `Reverse`. The layer of a
  sheet opened on a stack of depth `d` is `LayerZ(d) = 200 + 10*d`.
- `PageEvents` (`page_events.dfy`) lists the events a page can send to
  either variant: the three entry points, a keydown, a document or backdrop
  click, and the press, slide and lift of a drag.
- `TemplateSheets` (`template_sheets.dfy`) is the cloning variant. The stack
  holds entries, each with the sheet's id, the depth it was opened at (which
  gives the backdrop's z-index and the panel's z-index one above), and its
  recogniser. All of this goes when the sheet closes.
- `MarkupSheets` (`markup_sheets.dfy`) is the toggling variant. The stack holds
  ids. The z-index last written on each root, the set of wired roots, a count
  of how often each root was wired, and each root's recogniser all outlive the
  sheet's time on the stack, because the source never undoes them.

Every handler is a pure step function on an immutable state. `Step` and `Run`
feed a page's sequence of events through them. The browser's inputs become
parameters:

- `document.querySelector` becomes a set of registered ids.
- `Date.now()` becomes an integer millisecond timestamp.
- `clientY` becomes a real number.
- `offsetHeight` becomes a natural number.
- `e.target === handleEl` becomes a `Target` value.
- A click's `closest()` lookups become a pair of `Marker`s.

Every reachable state satisfies an invariant `Valid`, which every event
preserves (`RunValid`). No id is on the stack twice. Every open sheet is
registered. No sheet sits below the layer of its position. No recogniser
shows a drag offset outside a drag. In the toggling variant there are two more
conditions: every open root is wired, and each wired root was wired exactly
once.

## Model

| member | source | states |
|---|---|---|
| Gesture.Velocity | src/scripts/sheet.js:110-111 | the sample times the clamped interval gives back the displacement, an interval below one millisecond counts as one, and the speed never exceeds the displacement |
| Gesture.Damp | src/scripts/sheet.js:115-119 | downward drags move the panel by the full distance; upward drags move it by 0.08 of the distance, strictly between the finger travel and zero |
| Gesture.ShouldDismiss | src/scripts/sheet.js:126-129 | only a downward drag dismisses; a slow drag, or one no longer than 40 px, dismisses exactly when it is longer than 30% of the panel height; with a zero height any downward drag dismisses; a flick longer than 40 px and faster than 0.5 px/ms dismisses whatever the height |
| Gesture.OnStart | src/scripts/sheet.js:94-106 | a press off the handle changes nothing; a press on the handle starts a drag with both samples at the press point, the press time, and zero velocity, and leaves the drag offset as it was |
| Gesture.OnMove | src/scripts/sheet.js:108-120 | outside a drag nothing changes; inside one the velocity is the clamped sample since the last move, and the offset is the damped distance from the start |
| Gesture.OnEnd | src/scripts/sheet.js:122-135 | outside a drag nothing changes and nothing closes; otherwise the drag ends and the offset is cleared; it dismisses exactly when the release rule holds, and only for a release below the start |
| Gesture.DampMonotone | src/scripts/sheet.js:115-119 | a finger further down never places the panel higher |
| Gesture.UpwardReleaseKeepsSheet | src/scripts/sheet.js:126-129 | a release at or above the press point never dismisses, whatever the speed |
| Gesture.DismissMonotone | src/scripts/sheet.js:126-129 | a release that dismisses still dismisses when it ends further down |
| Gesture.NoDragWithoutHandle | src/scripts/sheet.js:94-101 | any sequence of presses, moves and releases that never presses the handle leaves an idle recogniser unchanged and closes nothing |
| Gesture.ReplayCoherent | src/scripts/sheet.js:115-132 | over any event sequence the panel carries an offset only while a drag is active |
| Gesture.SwipeDecision | src/scripts/sheet.js:99-135 | a press on the handle, one move and a release dismiss exactly when the release rule holds for the distance and the move's velocity, and the drag is over afterwards |
| Gesture.HalfHeightDragDismisses | src/scripts/sheet.js:126-129 | dragging half the panel height down dismisses even with zero velocity |
| Gesture.ShortSlowDragSnapsBack | src/scripts/sheet.js:122-135 | a slow drag of a tenth of the panel height does not dismiss, ends the drag and clears the offset |
| SheetStack.LayerZ | src/scripts/sheet.js:11-12 | a sheet's backdrop layer is never below 200 and always a whole number of 10-steps above it |
| SheetStack.LayerZIncreasing | src/scripts/sheet.js:11-12 | a sheet opened at a greater depth is layered at least one full step higher |
| SheetStack.IndexOf | src/scripts/sheet.js:64 | the result is -1 exactly when the id is absent; otherwise it is the position of the id's first occurrence |
| SheetStack.Splice | src/scripts/sheet.js:68 | one entry fewer; entries before the position keep their places and those after move down by one |
| SheetStack.Remove | src/scripts/sheet.js:63-68 | an absent id leaves the stack as it is; a present one takes out exactly one entry, at a position with no earlier entry for that id, and keeps the rest in order |
| SheetStack.RemoveIsWithout | src/scripts/sheet.js:63-68 | on a duplicate-free stack, the findIndex-and-splice removal equals the reference "every other id in order" |
| SheetStack.RemoveDistinct | src/scripts/sheet.js:63-68 | removal keeps the stack duplicate-free and takes out exactly the closed id |
| SheetStack.RemoveTop | src/scripts/sheet.js:182-185 | removing the top id always takes one entry off, and on a duplicate-free stack pops it |
| SheetStack.RemovePushed | src/scripts/sheet.js:49 | removing an id that was just pushed gives back the stack before the push |
| SheetStack.Reverse | src/scripts/sheet.js:83 | the snapshot has the stack's length and lists it from the top down |
| SheetStack.ReverseTail | src/scripts/sheet.js:83 | the top-down snapshot is the top id followed by the snapshot of the rest |
| TemplateSheets.Open | src/scripts/sheet.js:18-49 | no template or already open: nothing changes; otherwise exactly one entry is appended, with a fresh recogniser, backdrop z 200 + 10 × the previous depth and panel z one above |
| TemplateSheets.Close | src/scripts/sheet.js:63-68 | closing an id that is not open changes nothing; closing an open one removes one entry |
| TemplateSheets.CloseEach | src/scripts/sheet.js:82-84 | any run of closes keeps the registered templates |
| TemplateSheets.CloseAll | src/scripts/sheet.js:82-84 | closeAll keeps the registered templates, and on a duplicate-free stack leaves no sheet open and changes nothing else |
| TemplateSheets.OnKeyDown | src/scripts/sheet.js:182-185 | another key, or an empty stack, changes nothing; Escape with sheets open takes exactly one off, and on a duplicate-free stack that is the top one |
| TemplateSheets.OnClick | src/scripts/sheet.js:174-180 | templates stay registered; a click on no marker changes nothing; an open marker alone opens its sheet and a close marker alone closes its sheet; a control that opens and closes the same sheet, not open before, leaves the page as it was |
| TemplateSheets.OnPress | src/scripts/sheet.js:137-142 | no sheet opens or closes and every other entry is untouched; a press off the handle, or on a sheet not open, changes nothing; a press on the handle starts a drag on that sheet; the sheet's recogniser takes the press as `onStart` does (drag begun on the handle at the press point and time, velocity zero) |
| TemplateSheets.OnSlide | src/scripts/sheet.js:143-147 | no sheet opens or closes and every other entry is untouched; the open sheet's recogniser takes the move as `onMove` does; unless that sheet is being dragged nothing changes |
| TemplateSheets.OnLift | src/scripts/sheet.js:148-153 | templates stay registered and at most one sheet closes; unless that sheet is being dragged nothing changes; on a duplicate-free stack no entry of that sheet is still dragging afterwards; entries of other sheets all stay on the stack; when the release does not dismiss, the stack keeps its length and the sheet's recogniser is the one `onEnd` leaves |
| TemplateSheets.LiftAt | src/scripts/sheet.js:122-135 | the lift as the reached entry receives it: at most one sheet closes, entries of other sheets stay, a recogniser not dragging changes nothing, and without a dismissal the entry's recogniser is the one `onEnd` leaves |
| TemplateSheets.CloseRemovesExactly | src/scripts/sheet.js:63-68 | closing an open sheet removes exactly its entry, with the others unchanged in order, layer and recogniser; the ids left are every other id; the invariant holds |
| TemplateSheets.EscapeClosesOnlyTop | src/scripts/sheet.js:182-185 | Escape with sheets open pops only the top one; another key, or an empty stack, changes nothing |
| TemplateSheets.CloseTopPops | src/scripts/sheet.js:183-184 | closing the sheet on top leaves exactly the entries below it |
| TemplateSheets.CloseAllFirstStep | src/scripts/sheet.js:82-84 | the first close of closeAll's snapshot pops the top, and the rest of the snapshot is that of the popped stack |
| TemplateSheets.CloseAllTopmostFirst | src/scripts/sheet.js:82-84 | after the first k closes of closeAll exactly the k topmost sheets are gone and those below are untouched |
| TemplateSheets.OpenIdempotent | src/scripts/sheet.js:24 | opening twice is opening once |
| TemplateSheets.CloseUndoesOpen | src/scripts/sheet.js:18-68 | for an id not open, opening and then closing it restores the controller exactly, whether or not a template exists |
| TemplateSheets.OpenInOrder | src/scripts/sheet.js:26-49 | opening distinct registered ids in turn stacks them in that order, each at the depth of its position |
| TemplateSheets.OpenOnlyLayersRise | src/scripts/sheet.js:26-40 | without closes, backdrops sit at 200, 210, 220, … and every later panel and backdrop lies wholly above every earlier one |
| TemplateSheets.LayeringAfterCloses | src/scripts/sheet.js:26-31 | open a, b, c, close a, b, open d: d is on top of the stack at z 210, below c at z 220 |
| TemplateSheets.TermsCookiesScenario | src/scripts/sheet.js:18-68 | open "terms" (200), open "cookies" (210), Escape leaves "terms", closing "terms" empties the stack |
| TemplateSheets.OpenValid | src/scripts/sheet.js:18-49 | opening keeps the invariant |
| TemplateSheets.ClickValid | src/scripts/sheet.js:174-180 | a declarative click, opening then closing, keeps the invariant |
| TemplateSheets.GestureValid | src/scripts/sheet.js:99-135 | touch and mouse events keep the invariant, including a dismissal that closes the sheet |
| TemplateSheets.StepValid | src/scripts/sheet.js:18-185 | every event the page can send keeps the invariant |
| TemplateSheets.RunValid | src/scripts/sheet.js:18-84 | from a valid state, any sequence of events keeps the stack duplicate-free, registered, layered and with drag offsets only during drags |
| TemplateSheets.ReleaseClosesIff | src/scripts/sheet.js:122-135 | a release on an open sheet closes it exactly when its recogniser's dismiss rule holds, and closes no other sheet |
| MarkupSheets.Open | public/scripts/sheet.js:18-40 | no root or already open: nothing changes; otherwise the id is appended and the root is layered at 200 + 10 × the previous depth; the first opening wires once and creates a fresh recogniser, and a later one wires nothing |
| MarkupSheets.Close | public/scripts/sheet.js:53-58 | closing an id that is not open changes nothing; closing an open one removes one id and changes nothing but the stack |
| MarkupSheets.CloseAll | public/scripts/sheet.js:71-73 | closeAll changes nothing but the stack, so every root keeps its z-index, wiring and recogniser; on a duplicate-free stack no sheet is left open |
| MarkupSheets.OnKeyDown | public/scripts/sheet.js:175-178 | another key, or an empty stack, changes nothing; Escape with sheets open takes exactly one off, and on a duplicate-free stack that is the top one; nothing but the stack changes |
| MarkupSheets.OnClick | public/scripts/sheet.js:161-173 | roots stay as registered; a click on no marker changes nothing; an open marker alone opens its sheet and a close marker alone closes its sheet; a control that opens and closes the same sheet, not open before, leaves the stack as it was but keeps the root's new layer and wiring |
| MarkupSheets.OnBackdropClick | public/scripts/sheet.js:34-35 | only the stack changes; an unwired root or a sheet not open is left alone; otherwise exactly one sheet closes |
| MarkupSheets.OnPress | public/scripts/sheet.js:121-126 | only the pressed root's recogniser changes; a press off the handle changes nothing; a press on the handle of any wired root, open or not, starts a drag; the pressed root's recogniser takes the press as `onStart` does |
| MarkupSheets.OnSlide | public/scripts/sheet.js:127-134 | only that root's recogniser changes, taking the move as `onMove` does, and only while it is being dragged |
| MarkupSheets.OnLift | public/scripts/sheet.js:135-140 | only the recogniser and the stack change, and other roots' recognisers stay as they were; the lifted root's recogniser is the one `onEnd` leaves, so the drag is over afterwards; unless the root was being dragged nothing changes; otherwise the stack stays or loses exactly that id |
| MarkupSheets.CloseRemovesExactly | public/scripts/sheet.js:53-58 | closing leaves every other id in order and takes out exactly the closed one; the invariant holds |
| MarkupSheets.EscapeClosesOnlyTop | public/scripts/sheet.js:175-178 | Escape with sheets open pops only the top one and changes nothing else; another key, or an empty stack, changes nothing |
| MarkupSheets.CloseAllTopmostFirst | public/scripts/sheet.js:71-73 | after the first k closes of closeAll exactly the k topmost sheets are gone and nothing else has changed |
| MarkupSheets.CloseEach | public/scripts/sheet.js:53-73 | any run of closes changes nothing but the stack |
| MarkupSheets.BackdropClickCloses | public/scripts/sheet.js:34-35 | a backdrop click does what `close` does, even for a root never wired, since such a root is never open |
| MarkupSheets.StackWired | public/scripts/sheet.js:34-40 | only wired roots are on the stack |
| MarkupSheets.WiredAtMostOnce | public/scripts/sheet.js:34-38 | from a fresh page, after any events, each root has been wired at most once, and exactly once when it carries the flag |
| MarkupSheets.FirstOpenWires | public/scripts/sheet.js:34-38 | the first opening of a root wires it exactly once and gives it an idle recogniser |
| MarkupSheets.ReopenDoesNotRewire | public/scripts/sheet.js:34-38 | reopening a root already wired attaches nothing and keeps its recogniser as it was |
| MarkupSheets.StepKeepsWiring | public/scripts/sheet.js:34-38 | no event removes a flag or a wiring |
| MarkupSheets.WiringPersists | public/scripts/sheet.js:34-38 | over any event sequence the set of wired roots and the wiring count only grow |
| MarkupSheets.OpenIdempotent | public/scripts/sheet.js:25 | opening twice is opening once |
| MarkupSheets.ReopenRestores | public/scripts/sheet.js:31-58 | closing the top sheet and reopening it gives back the same controller when nothing was closed beneath it |
| MarkupSheets.CloseUndoesOpen | public/scripts/sheet.js:18-58 | for an id not open, opening and then closing it undoes only the push; the root's layer and wiring stay |
| MarkupSheets.OpenInOrder | public/scripts/sheet.js:31-40 | opening distinct roots in turn on a fresh page stacks them in order, with root z 200 + 10 × position |
| MarkupSheets.OpenOnlyLayersRise | public/scripts/sheet.js:31-32 | without closes, every later root is layered strictly above every earlier one |
| MarkupSheets.ReopenSharesLayer | public/scripts/sheet.js:31-32 | open a, open b, close a, open a: a is on top of the stack but both roots carry z 210 |
| MarkupSheets.OpenValid | public/scripts/sheet.js:18-40 | opening keeps the invariant |
| MarkupSheets.ClickValid | public/scripts/sheet.js:161-173 | a declarative click, opening then closing, keeps the invariant |
| MarkupSheets.GestureValid | public/scripts/sheet.js:83-119 | touch and mouse events keep the invariant, including a dismissal that closes the sheet |
| MarkupSheets.StepValid | public/scripts/sheet.js:18-178 | every event the page can send keeps the invariant |
| MarkupSheets.RunValid | public/scripts/sheet.js:18-73 | from a valid state, any sequence of events keeps the invariant |
| MarkupSheets.ReleaseClosesIff | public/scripts/sheet.js:106-118 | a release closes an open sheet exactly when its recogniser's dismiss rule holds, and closes no other sheet |
| MarkupSheets.InterruptedDragResumes | public/scripts/sheet.js:76-104 | if a drag is cut short by Escape and the sheet is reopened before any release, a move drags the sheet again without a new press on the handle |

## Left out

- Building, cloning and removing DOM nodes, CSS classes, the `role` and `aria-modal` attributes, and the `--drag-y` text formatting: presentation only. The offset is kept as a number.
- The double `requestAnimationFrame`, the `transitionend` listener and the 450 ms cleanup timer: they change no stack state, because the stack is updated synchronously.
- The recogniser of a closed sheet, in the cloning variant: the model drops it with the sheet's entry, so every later press, move and lift for it is ignored. In the source it lives on, in two ways. First, a closed panel stays in the page until its `transitionend` or the 450 ms timer, and its `touchstart` and handle `mousedown` listeners stay live until then, so a press on its handle in that time starts a drag on the old recogniser. For example: open "a", close "a", press the handle of the old "a", open "a", and release 1000 px lower on a 100 px panel; the source closes the new "a" and the model leaves it open. Second, a drag that is under way when its sheet closes keeps running. Its `mousemove`/`mouseup` listeners on `window` are removed only by the mouse release, and a touch that began on the panel keeps delivering `touchmove`/`touchend` to it after the panel is detached. Its `isDragging` stays true until that release, which can come at any later time; the 450 ms cleanup does not bound it. If the release passes the dismiss rule, it calls `close(id)`, and that closes a sheet opened again under the same id in the meantime. For example: open "a", press its handle, press Escape, open "a" again, and release 1000 px lower on a 100 px panel. The source closes the new "a"; the model leaves it open.
- Listener attachment and removal, `preventDefault` and passive flags: these are plumbing, apart from the stale recogniser above. Touch and mouse events both arrive as `Press`/`Slide`/`Lift`, and `touchcancel` is a `Lift`.
- How `closest()` resolves the opener and closer of a click: the model receives the resolved ids as `Marker`s.
- A registered root that lacks a backdrop, panel or handle, or a cloning-variant id whose element is not a `<template>`: the source would throw, and the model assumes well-formed markup.
- `querySelector` with ids that contain quotes or backslashes: the model treats every registered id string as findable.
- `console.warn`: it has no observable state.
- Sheet ids that are not strings: every id in the model is a string. The source compares ids with `===`, while ids read from `data-sheet-open`/`data-sheet-close` are always strings, so `ActionSheet.open(5)` followed by a click on `data-sheet-open="5"` would stack the same sheet twice. The model assumes callers pass string ids, as the usage comment at the head of `src/scripts/sheet.js` shows.
- IEEE-754 arithmetic: positions, offsets and velocities are exact reals, and the thresholds are compared exactly.
- `src/scripts/global.js`, `astro.config.mjs` and `prettier.config.mjs`: a third-party phone-input wrapper and build configuration, with no controller logic.
- TemplateSheets.CloseAllTopmostFirst: assumes a duplicate-free stack. Every reachable state has one (`RunValid`), because `open` refuses an id that is already open.
- TemplateSheets.CloseAll: promises an empty stack only for a duplicate-free stack, as every reachable state has.
- TemplateSheets.OnLift: promises that the lift leaves no entry of its sheet dragging only for a duplicate-free stack, as every reachable state has; with a duplicate, a later entry of the same id is not the one the lift reaches.
- TemplateSheets.OnKeyDown: promises that Escape removes the top entry only for a duplicate-free stack, as every reachable state has.
- MarkupSheets.CloseAllTopmostFirst: assumes a duplicate-free stack, as every reachable state has.
- MarkupSheets.CloseAll: promises an empty stack only for a duplicate-free stack, as every reachable state has.
- MarkupSheets.OnKeyDown: promises that Escape removes the top id only for a duplicate-free stack, as every reachable state has.
- TemplateSheets.EscapeClosesOnlyTop: stated for states satisfying the invariant `Valid`, which every reachable state does.
- TemplateSheets.CloseRemovesExactly: stated for states satisfying `Valid`, which every reachable state does.
- MarkupSheets.EscapeClosesOnlyTop: stated for states satisfying `Valid`, which every reachable state does.
- MarkupSheets.CloseRemovesExactly: stated for states satisfying `Valid`, which every reachable state does.
- MarkupSheets.InterruptedDragResumes: this states what the model does when no release arrives between Escape and the reopening. With a real mouse, the `mouseup` listener on `window` usually ends the drag first.

=== FILE: gesture.dfy ===
/**
 * The swipe-to-close recogniser attached to every action sheet. Both variants
 * of the controller run the same three handlers: a drag may begin only on the
 * sheet's handle strip, every move refreshes a velocity estimate and the
 * visual offset, and the release decides between dismissing the sheet and
 * letting it snap back.
 *
 * Touch and mouse positions are CSS pixels (`real`), timestamps are the integer
 * milliseconds of the browser clock, and the panel height is its integer
 * layout height. The clock and the layout are inputs of the handlers.
 */
module Gesture {

  /** Upward drags move the panel by only this fraction of the finger travel. */
  const UpwardDamping: real := 0.08
  /** A release further down than this fraction of the panel height dismisses. */
  const DismissFraction: real := 0.3
  /** A flick must travel further than this many pixels ... */
  const FlickDistance: real := 40.0
  /** ... and move faster than this many pixels per millisecond. */
  const FlickSpeed: real := 0.5
  /** The smallest time step used as a velocity denominator. */
  const MinInterval: int := 1

  /** Where a press landed: on the handle strip, or anywhere else in the sheet. */
  datatype Target = Handle | Elsewhere

  /** The `--drag-y` style property of the panel: absent, or an offset in pixels. */
  datatype Offset = Unset | Px(px: real)

  /** The closure variables of one recogniser, plus the style property it drives. */
  datatype DragState = DragState(
    dragging: bool,
    startY: real,
    lastY: real,
    lastTime: int,
    velocity: real,
    dragY: Offset)

  /** The recogniser as it is created: not dragging, all numbers zero. */
  const Idle: DragState := DragState(false, 0.0, 0.0, 0, 0.0, Unset)

  /** Outside a drag the panel carries no offset. */
  predicate Coherent(d: DragState) {
    !d.dragging ==> d.dragY == Unset
  }

  function Abs(x: real): real {
    if x < 0.0 then -x else x
  }

  function Max(a: int, b: int): int {
    if a < b then b else a
  }

  /** Dividing by a time step of at least one never enlarges a displacement. */
  lemma QuotientBound(dy: real, t: real)
    requires t >= 1.0
    ensures Abs(dy / t) <= Abs(dy)
  {
    var u := 1.0 / t;
    assert u * t == 1.0;
    assert 0.0 < u <= 1.0;
    assert dy / t == dy * u;
    assert Abs(dy * u) == Abs(dy) * u;
    assert Abs(dy) * u <= Abs(dy) * 1.0;
  }

  /** Pixels per millisecond between two samples; the interval is clamped to at least one. */
  function Velocity(dy: real, dt: int): (v: real)
    ensures dt >= MinInterval ==> v * (dt as real) == dy
    ensures dt < MinInterval ==> v == dy
    ensures Abs(v) <= Abs(dy)
  {
    var t := Max(dt, MinInterval) as real;
    QuotientBound(dy, t);
    dy / t
  }

  /** The visual offset for a finger displacement: followed downward, resisted upward. */
  function Damp(delta: real): (offset: real)
    ensures delta >= 0.0 ==> offset == delta
    ensures delta < 0.0 ==> delta < offset < 0.0 && offset == delta * UpwardDamping
  {
    if delta < 0.0 then delta * UpwardDamping else delta
  }

  /**
   * The rule applied when a drag ends: a long drag, or a short fast flick,
   * dismisses the sheet. Only a downward drag can dismiss; a slow drag, or
   * one no longer than a flick, is judged by its length alone.
   */
  function ShouldDismiss(delta: real, velocity: real, height: nat): (dismiss: bool)
    ensures dismiss ==> delta > 0.0
    ensures velocity <= FlickSpeed ==> (dismiss <==> delta > (height as real) * DismissFraction)
    ensures delta <= FlickDistance ==> (dismiss <==> delta > (height as real) * DismissFraction)
    ensures height == 0 ==> (dismiss <==> delta > 0.0)
    ensures delta > FlickDistance && velocity > FlickSpeed ==> dismiss
  {
    delta > (height as real) * DismissFraction || (delta > FlickDistance && velocity > FlickSpeed)
  }

  /** Press: begins a drag only where the press landed on the handle strip itself, and then resets the samples. */
  function OnStart(d: DragState, clientY: real, target: Target, now: int): (r: DragState)
    ensures target != Handle ==> r == d
    ensures target == Handle ==>
      && r.dragging
      && r.startY == clientY && r.lastY == clientY
      && r.lastTime == now && r.velocity == 0.0
      && r.dragY == d.dragY
    ensures Coherent(d) ==> Coherent(r)
  {
    if target != Handle then d
    else d.(dragging := true, startY := clientY, lastY := clientY, lastTime := now, velocity := 0.0)
  }

  /** Move: ignored outside a drag; otherwise samples the velocity and moves the panel. */
  function OnMove(d: DragState, clientY: real, now: int): (r: DragState)
    ensures !d.dragging ==> r == d
    ensures d.dragging ==>
      && r.dragging && r.startY == d.startY
      && r.lastY == clientY && r.lastTime == now
      && r.velocity == Velocity(clientY - d.lastY, now - d.lastTime)
      && r.dragY == Px(Damp(clientY - d.startY))
    ensures Coherent(d) ==> Coherent(r)
  {
    if !d.dragging then d
    else
      var velocity := Velocity(clientY - d.lastY, now - d.lastTime);
      d.(velocity := velocity, lastY := clientY, lastTime := now, dragY := Px(Damp(clientY - d.startY)))
  }

  /** The recogniser after an event, and whether the event asks to close the sheet. */
  datatype Verdict = Verdict(after: DragState, dismiss: bool)

  /** Lift or cancel: ignored outside a drag; otherwise ends it and decides. */
  function OnEnd(d: DragState, clientY: real, height: nat): (r: Verdict)
    ensures !d.dragging ==> r == Verdict(d, false)
    ensures d.dragging ==> !r.after.dragging && r.after.dragY == Unset && r.after.startY == d.startY
    ensures r.dismiss <==> d.dragging && ShouldDismiss(clientY - d.startY, d.velocity, height)
    ensures r.dismiss ==> clientY > d.startY
    ensures Coherent(d) ==> Coherent(r.after)
  {
    if !d.dragging then Verdict(d, false)
    else
      var shouldClose := ShouldDismiss(clientY - d.startY, d.velocity, height);
      Verdict(d.(dragging := false, dragY := Unset), shouldClose)
  }

  /** One touch or mouse event as the recogniser sees it. */
  datatype Input =
    | Press(y: real, target: Target, at: int)
    | Slide(y: real, at: int)
    | Lift(y: real, height: nat)

  function Feed(d: DragState, input: Input): Verdict {
    match input
    case Press(y, target, at) => Verdict(OnStart(d, y, target, at), false)
    case Slide(y, at) => Verdict(OnMove(d, y, at), false)
    case Lift(y, height) => OnEnd(d, y, height)
  }

  /** Feeds a whole event sequence; `dismiss` tells whether any release asked to close. */
  function Replay(d: DragState, inputs: seq<Input>): Verdict
    decreases |inputs|
  {
    if |inputs| == 0 then Verdict(d, false)
    else
      var first := Feed(d, inputs[0]);
      var rest := Replay(first.after, inputs[1..]);
      Verdict(rest.after, first.dismiss || rest.dismiss)
  }

  /** Moving the finger further down never moves the panel up. */
  lemma DampMonotone(a: real, b: real)
    requires a <= b
    ensures Damp(a) <= Damp(b)
  {
  }

  /** A release at or above its starting point never dismisses, however fast. */
  lemma UpwardReleaseKeepsSheet(delta: real, velocity: real, height: nat)
    requires delta <= 0.0
    ensures !ShouldDismiss(delta, velocity, height)
  {
  }

  /** A release that dismisses still dismisses when it ends further down. */
  lemma DismissMonotone(delta: real, further: real, velocity: real, height: nat)
    requires delta <= further
    requires ShouldDismiss(delta, velocity, height)
    ensures ShouldDismiss(further, velocity, height)
  {
  }

  /** Presses that never land on the handle leave an idle recogniser untouched. */
  lemma {:induction false} NoDragWithoutHandle(d: DragState, inputs: seq<Input>)
    requires !d.dragging
    requires forall i :: 0 <= i < |inputs| && inputs[i].Press? ==> inputs[i].target != Handle
    ensures Replay(d, inputs) == Verdict(d, false)
    decreases |inputs|
  {
    if |inputs| > 0 {
      assert Feed(d, inputs[0]) == Verdict(d, false);
      NoDragWithoutHandle(d, inputs[1..]);
    }
  }

  /** Every event sequence keeps the offset confined to drags. */
  lemma {:induction false} ReplayCoherent(d: DragState, inputs: seq<Input>)
    requires Coherent(d)
    ensures Coherent(Replay(d, inputs).after)
    decreases |inputs|
  {
    if |inputs| > 0 {
      ReplayCoherent(Feed(d, inputs[0]).after, inputs[1..]);
    }
  }

  /**
   * A complete handle drag (press, one move, release) dismisses exactly when the
   * release is far enough down, or far enough and the last move fast enough.
   */
  lemma SwipeDecision(d: DragState, y0: real, t0: int, y1: real, t1: int, y2: real, height: nat)
    ensures Replay(d, [Press(y0, Handle, t0), Slide(y1, t1), Lift(y2, height)]).dismiss
        <==> ShouldDismiss(y2 - y0, Velocity(y1 - y0, t1 - t0), height)
    ensures !Replay(d, [Press(y0, Handle, t0), Slide(y1, t1), Lift(y2, height)]).after.dragging
  {
    var inputs := [Press(y0, Handle, t0), Slide(y1, t1), Lift(y2, height)];
    var a := OnStart(d, y0, Handle, t0);
    var b := OnMove(a, y1, t1);
    assert inputs[1..] == [Slide(y1, t1), Lift(y2, height)];
    assert inputs[1..][1..] == [Lift(y2, height)];
    assert Replay(b, [Lift(y2, height)]) == Verdict(OnEnd(b, y2, height).after, OnEnd(b, y2, height).dismiss);
  }

  /** Dragging the handle down by half the panel height and letting go dismisses, with no speed at all. */
  lemma HalfHeightDragDismisses(d: DragState, y0: real, t0: int, height: nat)
    requires height > 0
    ensures Replay(d, [Press(y0, Handle, t0), Lift(y0 + (height as real) / 2.0, height)]).dismiss
  {
    var inputs := [Press(y0, Handle, t0), Lift(y0 + (height as real) / 2.0, height)];
    assert inputs[1..] == [Lift(y0 + (height as real) / 2.0, height)];
  }

  /**
   * A slow drag of a tenth of the panel height snaps back: no dismissal, the
   * drag is over and the offset is cleared.
   */
  lemma ShortSlowDragSnapsBack(d: DragState, y0: real, t0: int, t1: int, height: nat)
    requires Velocity((height as real) / 10.0, t1 - t0) <= FlickSpeed
    ensures var y1 := y0 + (height as real) / 10.0;
      var r := Replay(d, [Press(y0, Handle, t0), Slide(y1, t1), Lift(y1, height)]);
      !r.dismiss && !r.after.dragging && r.after.dragY == Unset
  {
    var y1 := y0 + (height as real) / 10.0;
    var inputs := [Press(y0, Handle, t0), Slide(y1, t1), Lift(y1, height)];
    assert inputs[1..] == [Slide(y1, t1), Lift(y1, height)];
    assert inputs[1..][1..] == [Lift(y1, height)];
    var a := OnStart(d, y0, Handle, t0);
    var b := OnMove(a, y1, t1);
    assert b.velocity == Velocity((height as real) / 10.0, t1 - t0);
    assert Replay(b, [Lift(y1, height)]) == Verdict(OnEnd(b, y1, height).after, OnEnd(b, y1, height).dismiss);
  }
}

=== FILE: markup_sheets.dfy ===
/**
 * The markup-toggling variant of the action-sheet controller
 * (public/scripts/sheet.js). Every sheet is already in the page as a root
 * element carrying its id, with a backdrop, a panel and a handle inside.
 * Opening shows the root, writes a z-index on it and, the first time only,
 * wires the backdrop click and the swipe recogniser; closing hides it again.
 *
 * Nothing is destroyed on close, so three things outlive a sheet's time on
 * the stack: the z-index last written on its root (kept here as the depth it
 * was last opened at), the `sheetInitialized` flag, and the recogniser with
 * its closure variables. `wirings` counts, per root, how many times the
 * wiring block ran.
 */
module MarkupSheets {
  import opened SheetStack
  import opened PageEvents
  import Gesture

  datatype State = State(
    roots: set<string>,
    stack: seq<string>,
    rootLevel: map<string, nat>,
    initialized: set<string>,
    wirings: multiset<string>,
    drags: map<string, Gesture.DragState>)

  function Init(roots: set<string>): State {
    State(roots, [], map[], {}, multiset{}, map[])
  }

  /** The z-index on a root that has been opened at least once. */
  function RootZ(s: State, id: string): int
    requires id in s.rootLevel
  {
    LayerZ(s.rootLevel[id])
  }

  /**
   * Every id on the stack was opened at a depth no lower than its current
   * position, so its layer is at least the one its position would get.
   */
  predicate LayeredAbove(ids: seq<string>, level: map<string, nat>) {
    forall i :: 0 <= i < |ids| ==> ids[i] in level && i <= level[ids[i]]
  }

  /** No recogniser shows an offset outside a drag. */
  predicate AllCoherent(drags: map<string, Gesture.DragState>) {
    forall id :: id in drags ==> Gesture.Coherent(drags[id])
  }

  /** The invariant every reachable controller state keeps. */
  ghost predicate Valid(s: State) {
    && Distinct(s.stack)
    && s.initialized <= s.roots
    && s.rootLevel.Keys == s.initialized
    && s.drags.Keys == s.initialized
    && s.wirings == multiset(s.initialized)
    && LayeredAbove(s.stack, s.rootLevel)
    && AllCoherent(s.drags)
  }

  /**
   * `ActionSheet.open(id)`: nothing without a root (a warning is logged),
   * nothing when the sheet is already open; otherwise the root is layered by
   * the current depth, wired if it never was, and pushed.
   */
  function Open(s: State, id: string): (r: State)
    ensures id !in s.roots ==> r == s
    ensures id in s.stack ==> r == s
    ensures id in s.roots && id !in s.stack ==>
      && r.roots == s.roots
      && r.stack == s.stack + [id]
      && r.rootLevel == s.rootLevel[id := |s.stack|]
      && RootZ(r, id) == BaseZ + |s.stack| * ZStep
      && r.initialized == s.initialized + {id}
      && (id in s.initialized ==> r.wirings == s.wirings && r.drags == s.drags)
      && (id !in s.initialized ==> r.wirings == s.wirings + multiset{id} && r.drags == s.drags[id := Gesture.Idle])
  {
    if id !in s.roots then s
    else if IndexOf(s.stack, id) != -1 then s
    else
      var depth := |s.stack|;
      var wired :=
        if id in s.initialized then s
        else s.(wirings := s.wirings + multiset{id}, drags := s.drags[id := Gesture.Idle],
                initialized := s.initialized + {id});
      wired.(rootLevel := s.rootLevel[id := depth], stack := s.stack + [id])
  }

  /** `ActionSheet.close(id)`: nothing when the sheet is not open; otherwise it leaves the stack, and nothing else changes. */
  function Close(s: State, id: string): (r: State)
    ensures id !in s.stack ==> r == s
    ensures id in s.stack ==> |r.stack| == |s.stack| - 1
    ensures r == s.(stack := r.stack)
  {
    var i := IndexOf(s.stack, id);
    if i == -1 then s else s.(stack := Splice(s.stack, i))
  }

  /** Closes the given ids one after the other, first id first; nothing but the stack changes. */
  function CloseEach(s: State, ids: seq<string>): (r: State)
    ensures r == s.(stack := r.stack)
    decreases |ids|
  {
    if |ids| == 0 then s else CloseEach(Close(s, ids[0]), ids[1..])
  }

  /**
   * `ActionSheet.closeAll()`: a close for every open sheet, over a snapshot
   * read top down. Roots keep their z-index, their wiring and their
   * recognisers; on a duplicate-free stack nothing is left open.
   */
  function CloseAll(s: State): (r: State)
    ensures r == s.(stack := r.stack)
    ensures Distinct(s.stack) ==> r.stack == []
  {
    CloseAllEmpties(s);
    CloseEach(s, Reverse(s.stack))
  }

  /**
   * The keydown listener: Escape closes the top sheet, if there is one; on a
   * duplicate-free stack that pops the stack. Nothing but the stack changes.
   */
  function OnKeyDown(s: State, key: string): (r: State)
    ensures key != EscapeKey || |s.stack| == 0 ==> r == s
    ensures r == s.(stack := r.stack)
    ensures key == EscapeKey && |s.stack| > 0 ==> |r.stack| == |s.stack| - 1
    ensures key == EscapeKey && |s.stack| > 0 && Distinct(s.stack) ==> r.stack == s.stack[..|s.stack| - 1]
  {
    if key == EscapeKey && |s.stack| > 0 then
      RemoveTop(s.stack);
      Close(s, Top(s.stack))
    else s
  }

  /**
   * The document click listener: an open marker opens, then a close marker
   * closes. A control marked to open and close the same sheet that is not
   * open leaves the stack as it was, though the root keeps its new layer and
   * its wiring.
   */
  function OnClick(s: State, opener: Marker, closer: Marker): (r: State)
    ensures r.roots == s.roots
    ensures opener.NoMarker? && closer.NoMarker? ==> r == s
    ensures opener.Marker? && closer.NoMarker? ==> r == Open(s, opener.id)
    ensures opener.NoMarker? && closer.Marker? ==> r == Close(s, closer.id)
    ensures opener.Marker? && closer == opener && opener.id !in s.stack ==>
      r == Open(s, opener.id).(stack := s.stack)
  {
    var s1 := if opener.Marker? then Open(s, opener.id) else s;
    if closer.Marker? then
      CloseUndoesOpen(s, closer.id);
      Close(s1, closer.id)
    else s1
  }

  /**
   * A backdrop has a click listener only once its root has been wired; the
   * click then closes that sheet. Nothing but the stack changes.
   */
  function OnBackdropClick(s: State, id: string): (r: State)
    ensures r == s.(stack := r.stack)
    ensures id !in s.initialized || id !in s.stack ==> r == s
    ensures id in s.initialized && id in s.stack ==> |r.stack| == |s.stack| - 1
  {
    if id in s.initialized then Close(s, id) else s
  }

  /**
   * The recogniser of a wired root stays attached whether or not the sheet
   * is open, so a press on the handle starts a drag either way. Only that
   * recogniser changes; a press off the handle changes nothing.
   */
  function OnPress(s: State, id: string, y: real, target: Gesture.Target, now: int): (r: State)
    ensures r == s.(drags := r.drags) && r.drags.Keys == s.drags.Keys
    ensures forall k :: k in s.drags && k != id ==> r.drags[k] == s.drags[k]
    ensures target != Gesture.Handle ==> r == s
    ensures target == Gesture.Handle && id in s.drags ==> r.drags[id].dragging
    ensures id in s.drags ==> r.drags[id] == Gesture.OnStart(s.drags[id], y, target, now)
  {
    if id !in s.drags then s
    else
      var d := Gesture.OnStart(s.drags[id], y, target, now);
      assert d == s.drags[id] ==> s.drags[id := d] == s.drags;
      s.(drags := s.drags[id := d])
  }

  /**
   * A move goes to the root's recogniser only, which takes its sample; unless
   * that root is being dragged, nothing changes.
   */
  function OnSlide(s: State, id: string, y: real, now: int): (r: State)
    ensures r == s.(drags := r.drags) && r.drags.Keys == s.drags.Keys
    ensures id in s.drags ==> r.drags[id] == Gesture.OnMove(s.drags[id], y, now)
    ensures forall k :: k in s.drags && k != id ==> r.drags[k] == s.drags[k]
    ensures id !in s.drags || !s.drags[id].dragging ==> r == s
  {
    if id !in s.drags then s
    else
      var d := Gesture.OnMove(s.drags[id], y, now);
      assert d == s.drags[id] ==> s.drags[id := d] == s.drags;
      s.(drags := s.drags[id := d])
  }

  /**
   * Lift: the recogniser decides, and a dismissal closes this sheet. The
   * drag is over afterwards; unless the root was being dragged nothing
   * changes, and otherwise at most this sheet leaves the stack.
   */
  function OnLift(s: State, id: string, y: real, height: nat): (r: State)
    ensures r == s.(drags := r.drags, stack := r.stack) && r.drags.Keys == s.drags.Keys
    ensures forall k :: k in s.drags && k != id ==> r.drags[k] == s.drags[k]
    ensures id in s.drags ==> r.drags[id] == Gesture.OnEnd(s.drags[id], y, height).after
    ensures id in s.drags ==> !r.drags[id].dragging
    ensures id !in s.drags || !s.drags[id].dragging ==> r == s
    ensures r.stack == s.stack || r.stack == Remove(s.stack, id)
  {
    if id !in s.drags then s
    else
      var verdict := Gesture.OnEnd(s.drags[id], y, height);
      assert !s.drags[id].dragging ==> s.drags[id := verdict.after] == s.drags;
      var s1 := s.(drags := s.drags[id := verdict.after]);
      if verdict.dismiss then Close(s1, id) else s1
  }

  function Step(s: State, e: Event): State {
    match e
    case OpenCall(id) => Open(s, id)
    case CloseCall(id) => Close(s, id)
    case CloseAllCall => CloseAll(s)
    case KeyDown(key) => OnKeyDown(s, key)
    case Click(opener, closer) => OnClick(s, opener, closer)
    case BackdropClick(id) => OnBackdropClick(s, id)
    case Press(id, y, target, at) => OnPress(s, id, y, target, at)
    case Slide(id, y, at) => OnSlide(s, id, y, at)
    case Lift(id, y, height) => OnLift(s, id, y, height)
  }

  function Run(s: State, events: seq<Event>): State
    decreases |events|
  {
    if |events| == 0 then s else Run(Step(s, events[0]), events[1..])
  }

  /** Opens the given ids one after the other, first id first. */
  function OpenEach(s: State, ids: seq<string>): State
    decreases |ids|
  {
    if |ids| == 0 then s
    else Open(OpenEach(s, ids[..|ids| - 1]), ids[|ids| - 1])
  }

  // ---------------------------------------------------------------- invariant

  /** Only wired roots are ever on the stack. */
  lemma StackWired(s: State)
    requires Valid(s)
    ensures forall i :: 0 <= i < |s.stack| ==> s.stack[i] in s.initialized
  {
  }

  /** A pushed sheet gets exactly the level of its position. */
  lemma PushLayered(ids: seq<string>, id: string, level: map<string, nat>)
    requires LayeredAbove(ids, level) && id !in ids
    ensures LayeredAbove(ids + [id], level[id := |ids|])
  {
    var r := ids + [id];
    forall i | 0 <= i < |r| ensures r[i] in level[id := |ids|] && i <= level[id := |ids|][r[i]] {
      if i < |ids| {
        assert r[i] == ids[i] != id;
      }
    }
  }

  /** Sheets above a removed one move down a position but keep their level, so the bound still holds. */
  lemma RemoveLayered(ids: seq<string>, id: string, level: map<string, nat>)
    requires LayeredAbove(ids, level)
    ensures LayeredAbove(Remove(ids, id), level)
  {
    var i := IndexOf(ids, id);
    if i != -1 {
      var r := Splice(ids, i);
      forall j | 0 <= j < |r| ensures r[j] in level && j <= level[r[j]] {
        if j >= i {
          assert r[j] == ids[j + 1];
        }
      }
    }
  }

  lemma InitValid(roots: set<string>)
    ensures Valid(Init(roots))
  {
  }

  lemma OpenValid(s: State, id: string)
    requires Valid(s)
    ensures Valid(Open(s, id))
  {
    if id in s.roots && id !in s.stack {
      DistinctPush(s.stack, id);
      PushLayered(s.stack, id, s.rootLevel);
    }
  }

  /**
   * Closing an open sheet takes exactly its id off the stack, keeps every
   * other id in its order, and touches nothing else.
   */
  lemma CloseRemovesExactly(s: State, id: string)
    requires Valid(s)
    ensures Close(s, id).stack == Without(s.stack, id)
    ensures Elems(Close(s, id).stack) == Elems(s.stack) - {id}
    ensures Valid(Close(s, id))
  {
    RemoveIsWithout(s.stack, id);
    RemoveDistinct(s.stack, id);
    RemoveLayered(s.stack, id, s.rootLevel);
  }

  /** Escape closes the top sheet and no other; on an empty stack, or for another key, nothing happens. */
  lemma EscapeClosesOnlyTop(s: State, key: string)
    requires Valid(s)
    ensures key == EscapeKey && |s.stack| > 0 ==> OnKeyDown(s, key) == s.(stack := s.stack[..|s.stack| - 1])
    ensures key != EscapeKey || |s.stack| == 0 ==> OnKeyDown(s, key) == s
    ensures Valid(OnKeyDown(s, key))
  {
    if key == EscapeKey && |s.stack| > 0 {
      RemoveTop(s.stack);
      CloseRemovesExactly(s, Top(s.stack));
    }
  }

  /**
   * closeAll works topmost first: after its first `k` closes exactly the `k`
   * top sheets are gone, and the sheets below are untouched.
   */
  lemma {:induction false} CloseAllTopmostFirst(s: State, k: nat)
    requires Distinct(s.stack) && k <= |s.stack|
    ensures CloseEach(s, Reverse(s.stack)[..k]) == s.(stack := s.stack[..|s.stack| - k])
    decreases k
  {
    var n := |s.stack|;
    if k == 0 {
      assert s.stack[..n] == s.stack;
    } else {
      var xs := Reverse(s.stack)[..k];
      var t := s.(stack := s.stack[..n - 1]);
      RemoveTop(s.stack);
      DistinctPrefix(s.stack, n - 1);
      ReverseTail(s.stack, k);
      assert xs[0] == Top(s.stack);
      assert Close(s, xs[0]) == t;
      assert xs[1..] == Reverse(t.stack)[..k - 1];
      CloseAllTopmostFirst(t, k - 1);
      assert t.stack[..n - 1 - (k - 1)] == s.stack[..n - k];
    }
  }

  /**
   * Closing the whole top-down snapshot of a duplicate-free stack leaves no
   * sheet open; roots keep their z-index, their wiring and their recognisers.
   */
  lemma CloseAllEmpties(s: State)
    ensures Distinct(s.stack) ==> CloseEach(s, Reverse(s.stack)) == s.(stack := [])
  {
    if Distinct(s.stack) {
      CloseAllTopmostFirst(s, |s.stack|);
      assert Reverse(s.stack)[..|s.stack|] == Reverse(s.stack);
    }
  }

  lemma ClickValid(s: State, opener: Marker, closer: Marker)
    requires Valid(s)
    ensures Valid(OnClick(s, opener, closer))
  {
    var s1 := if opener.Marker? then Open(s, opener.id) else s;
    if opener.Marker? {
      OpenValid(s, opener.id);
    }
    if closer.Marker? {
      CloseRemovesExactly(s1, closer.id);
    }
  }

  /** A backdrop click closes its sheet exactly as `close` would: an unwired root is never open. */
  lemma BackdropClickCloses(s: State, id: string)
    requires Valid(s)
    ensures OnBackdropClick(s, id) == Close(s, id)
  {
    StackWired(s);
  }

  lemma DragUpdateValid(s: State, id: string, d: Gesture.DragState)
    requires Valid(s) && id in s.drags && Gesture.Coherent(d)
    ensures Valid(s.(drags := s.drags[id := d]))
  {
  }

  lemma GestureValid(s: State, e: Event)
    requires Valid(s) && (e.Press? || e.Slide? || e.Lift?)
    ensures Valid(Step(s, e))
  {
    if e.sheet in s.drags {
      var d := s.drags[e.sheet];
      match e
      case Press(id, y, target, at) => DragUpdateValid(s, id, Gesture.OnStart(d, y, target, at));
      case Slide(id, y, at) => DragUpdateValid(s, id, Gesture.OnMove(d, y, at));
      case Lift(id, y, height) =>
        var verdict := Gesture.OnEnd(d, y, height);
        DragUpdateValid(s, id, verdict.after);
        CloseRemovesExactly(s.(drags := s.drags[id := verdict.after]), id);
    }
  }

  lemma StepValid(s: State, e: Event)
    requires Valid(s)
    ensures Valid(Step(s, e))
  {
    match e
    case OpenCall(id) => OpenValid(s, id);
    case CloseCall(id) => CloseRemovesExactly(s, id);
    case CloseAllCall =>
    case KeyDown(key) => EscapeClosesOnlyTop(s, key);
    case Click(opener, closer) => ClickValid(s, opener, closer);
    case BackdropClick(id) => BackdropClickCloses(s, id); CloseRemovesExactly(s, id);
    case Press(_, _, _, _) => GestureValid(s, e);
    case Slide(_, _, _) => GestureValid(s, e);
    case Lift(_, _, _) => GestureValid(s, e);
  }

  /**
   * Whatever the page does, no sheet is open twice, only wired roots are on
   * the stack, each root is wired at most once, and no recogniser shows an
   * offset outside a drag.
   */
  lemma {:induction false} RunValid(s: State, events: seq<Event>)
    requires Valid(s)
    ensures Valid(Run(s, events))
    decreases |events|
  {
    if |events| > 0 {
      StepValid(s, events[0]);
      RunValid(Step(s, events[0]), events[1..]);
    }
  }

  // ---------------------------------------------------------------- one-time wiring

  /** From a fresh page, whatever happens, no root's listeners are attached twice. */
  lemma WiredAtMostOnce(roots: set<string>, events: seq<Event>)
    ensures forall id :: Run(Init(roots), events).wirings[id] <= 1
    ensures forall id :: Run(Init(roots), events).wirings[id] == 1 <==> id in Run(Init(roots), events).initialized
  {
    InitValid(roots);
    RunValid(Init(roots), events);
  }

  /** The first opening of a root wires it once and gives it a fresh recogniser. */
  lemma FirstOpenWires(s: State, id: string)
    requires Valid(s) && id in s.roots && id !in s.initialized
    ensures Open(s, id).wirings[id] == 1
    ensures Open(s, id).drags[id] == Gesture.Idle
  {
    StackWired(s);
  }

  /**
   * Reopening a root that was opened before attaches nothing and resets
   * nothing: its recogniser, mid-drag or not, is the one it had.
   */
  lemma ReopenDoesNotRewire(s: State, id: string)
    requires Valid(s) && id in s.initialized && id !in s.stack
    ensures Open(s, id).wirings == s.wirings
    ensures Open(s, id).drags == s.drags
    ensures Open(s, id).initialized == s.initialized
  {
  }

  /** Every event keeps what earlier events wired. */
  lemma StepKeepsWiring(s: State, e: Event)
    ensures s.initialized <= Step(s, e).initialized
    ensures s.wirings <= Step(s, e).wirings
  {
  }

  /** Wiring is never undone. */
  lemma {:induction false} WiringPersists(s: State, events: seq<Event>)
    ensures s.initialized <= Run(s, events).initialized
    ensures s.wirings <= Run(s, events).wirings
    decreases |events|
  {
    if |events| > 0 {
      StepKeepsWiring(s, events[0]);
      WiringPersists(Step(s, events[0]), events[1..]);
    }
  }

  /** Opening twice is opening once. */
  lemma OpenIdempotent(s: State, id: string)
    ensures Open(Open(s, id), id) == Open(s, id)
  {
    if id in s.roots && id !in s.stack {
      assert Open(s, id).stack[|s.stack|] == id;
    }
  }

  /** Closing the top sheet and opening it again gives back the very same controller. */
  lemma ReopenRestores(s: State)
    requires Valid(s) && |s.stack| > 0
    requires s.rootLevel[Top(s.stack)] == |s.stack| - 1
    ensures Open(Close(s, Top(s.stack)), Top(s.stack)) == s
  {
    var n := |s.stack|;
    var id := Top(s.stack);
    assert s.stack[n - 1] in s.rootLevel;
    RemoveTop(s.stack);
    assert s.stack[..n - 1] + [id] == s.stack;
    assert id !in s.stack[..n - 1];
    assert s.rootLevel[id := n - 1] == s.rootLevel;
  }

  /** Closing a sheet just opened undoes the push only: its layer and its wiring stay. */
  lemma CloseUndoesOpen(s: State, id: string)
    ensures id !in s.stack ==> Close(Open(s, id), id) == Open(s, id).(stack := s.stack)
  {
    if id in s.roots && id !in s.stack {
      RemovePushed(s.stack, id);
    }
  }

  // ---------------------------------------------------------------- layering

  /**
   * Opening distinct sheets one after another on a fresh page stacks them in
   * that order, each root layered by its position, later roots wholly above
   * earlier ones.
   */
  lemma {:induction false} OpenInOrder(roots: set<string>, ids: seq<string>)
    requires Distinct(ids)
    requires forall i :: 0 <= i < |ids| ==> ids[i] in roots
    ensures OpenEach(Init(roots), ids).roots == roots
    ensures OpenEach(Init(roots), ids).stack == ids
    ensures forall i :: 0 <= i < |ids| ==> ids[i] in OpenEach(Init(roots), ids).rootLevel
    ensures forall i :: 0 <= i < |ids| ==> RootZ(OpenEach(Init(roots), ids), ids[i]) == BaseZ + i * ZStep
    decreases |ids|
  {
    if |ids| > 0 {
      var n := |ids|;
      var front := ids[..n - 1];
      OpenInOrder(roots, front);
      var before := OpenEach(Init(roots), front);
      assert ids[n - 1] !in front && ids[n - 1] in roots;
      assert ids == front + [ids[n - 1]];
      var r := OpenEach(Init(roots), ids);
      assert r.rootLevel == before.rootLevel[ids[n - 1] := n - 1];
      forall i | 0 <= i < n ensures ids[i] in r.rootLevel && RootZ(r, ids[i]) == BaseZ + i * ZStep {
        if i < n - 1 {
          assert ids[i] == front[i] != ids[n - 1];
        }
      }
    }
  }

  lemma OpenOnlyLayersRise(roots: set<string>, ids: seq<string>)
    requires Distinct(ids)
    requires forall i :: 0 <= i < |ids| ==> ids[i] in roots
    ensures var r := OpenEach(Init(roots), ids);
      forall i, j :: 0 <= i < j < |ids| ==>
        ids[i] in r.rootLevel && ids[j] in r.rootLevel && RootZ(r, ids[i]) < RootZ(r, ids[j])
  {
    OpenInOrder(roots, ids);
    var r := OpenEach(Init(roots), ids);
    forall i, j | 0 <= i < j < |ids| ensures RootZ(r, ids[i]) < RootZ(r, ids[j]) {
      LayerZIncreasing(i, j);
    }
  }

  /**
   * A root reopened above a sheet that stayed open gets that sheet's layer:
   * open "a", open "b", close "a", open "a" leaves both roots at 210, so
   * which one paints on top is left to document order.
   */
  lemma ReopenSharesLayer()
    ensures var s := Open(Close(Open(Open(Init({"a", "b"}), "a"), "b"), "a"), "a");
      && s.stack == ["b", "a"]
      && RootZ(s, "a") == 210 && RootZ(s, "b") == 210
  {
    var s1 := Open(Init({"a", "b"}), "a");
    var s2 := Open(s1, "b");
    assert s2.stack == ["a", "b"];
    assert IndexOf(s2.stack, "a") == 0;
    var s3 := Close(s2, "a");
    assert s3.stack == ["b"];
    var s4 := Open(s3, "a");
    assert s4.stack == ["b", "a"];
  }

  // ---------------------------------------------------------------- gestures

  /** A lift closes its sheet exactly when it is open and the recogniser's dismiss rule holds. */
  lemma ReleaseClosesIff(s: State, id: string, y: real, height: nat)
    requires Valid(s) && id in s.drags
    ensures var d := s.drags[id];
      var r := OnLift(s, id, y, height);
      && (id in s.stack && id !in r.stack <==> id in s.stack && d.dragging && Gesture.ShouldDismiss(y - d.startY, d.velocity, height))
      && (r.stack == s.stack || r.stack == Without(s.stack, id))
  {
    var verdict := Gesture.OnEnd(s.drags[id], y, height);
    var s1 := s.(drags := s.drags[id := verdict.after]);
    DragUpdateValid(s, id, verdict.after);
    CloseRemovesExactly(s1, id);
    WithoutMembers(s.stack, id, id);
  }

  /**
   * A drag cut short by Escape survives in the recogniser: when the sheet is
   * reopened before any release arrives, a move drags it without a new press
   * on the handle.
   */
  lemma InterruptedDragResumes(s: State, id: string, y: real, now: int)
    requires Valid(s) && |s.stack| > 0 && id == Top(s.stack) && s.drags[id].dragging
    ensures var r := OnSlide(Open(OnKeyDown(s, EscapeKey), id), id, y, now);
      && id in r.stack
      && r.drags[id].dragY == Gesture.Px(Gesture.Damp(y - s.drags[id].startY))
  {
    assert s.stack[|s.stack| - 1] in s.rootLevel;
    EscapeClosesOnlyTop(s, EscapeKey);
    var t := OnKeyDown(s, EscapeKey);
    assert id !in t.stack by {
      DistinctPrefix(s.stack, |s.stack| - 1);
      assert s.stack == t.stack + [id];
    }
  }
}

=== FILE: page_events.dfy ===
/**
 * What a page can do to the controller, in the page's own terms: call one of
 * the three entry points of `window.ActionSheet`, press a key, click the
 * document or a sheet's backdrop, or press, slide and lift a finger or the
 * mouse on a sheet. Both variants take the same events.
 */
module PageEvents {
  import Gesture

  /** The key whose keydown closes the top sheet. */
  const EscapeKey: string := "Escape"

  /** A declarative marker found by `closest()` on a clicked element, or none. */
  datatype Marker = NoMarker | Marker(id: string)

  /**
   * One event. `Press`, `Slide` and `Lift` name the sheet whose listeners
   * receive them; touch and mouse events arrive alike, and `touchcancel` is a
   * `Lift`.
   */
  datatype Event =
    | OpenCall(id: string)
    | CloseCall(id: string)
    | CloseAllCall
    | KeyDown(key: string)
    | Click(opener: Marker, closer: Marker)
    | BackdropClick(id: string)
    | Press(sheet: string, y: real, target: Gesture.Target, at: int)
    | Slide(sheet: string, y: real, at: int)
    | Lift(sheet: string, y: real, height: nat)
}

=== FILE: sheet_stack.dfy ===
/**
 * The stack discipline shared by both variants of the action-sheet controller:
 * the open sheets are a sequence of ids, bottom first, so the last id is the
 * sheet on top. Opening pushes, closing splices out the first entry with the
 * id (found the way `Array.prototype.findIndex` finds it), and the layering
 * of a new sheet depends only on how many sheets are open beneath it.
 * Nothing here knows what a sheet is beyond its id.
 */
module SheetStack {

  /** The z-index given to the backdrop of a sheet opened on an empty stack. */
  const BaseZ: int := 200
  /** How much higher each further open sheet is layered. */
  const ZStep: int := 10

  /** The backdrop z-index of a sheet opened with `depth` sheets already open. */
  function LayerZ(depth: nat): (z: int)
    ensures z >= BaseZ
    ensures (z - BaseZ) % ZStep == 0
  {
    BaseZ + depth * ZStep
  }

  /** Deeper openings are layered strictly higher, by at least one full step. */
  lemma LayerZIncreasing(i: nat, j: nat)
    requires i < j
    ensures LayerZ(i) + ZStep <= LayerZ(j)
  {
  }

  /** No id occurs twice. */
  predicate Distinct(ids: seq<string>) {
    forall i, j :: 0 <= i < j < |ids| ==> ids[i] != ids[j]
  }

  /** The position of the first occurrence of `id`, or -1 when there is none. */
  function IndexOf(ids: seq<string>, id: string): (r: int)
    ensures -1 <= r < |ids|
    ensures r == -1 <==> id !in ids
    ensures 0 <= r ==> ids[r] == id && id !in ids[..r]
  {
    if |ids| == 0 then -1
    else if ids[0] == id then 0
    else
      var k := IndexOf(ids[1..], id);
      assert k >= 0 ==> ids[..k + 1] == [ids[0]] + ids[1..][..k];
      if k == -1 then -1 else k + 1
  }

  /** Deletes the entry at position `i`; the others keep their order and close the gap. */
  function Splice<T>(s: seq<T>, i: nat): (r: seq<T>)
    requires i < |s|
    ensures |r| == |s| - 1
    ensures forall j :: 0 <= j < i ==> r[j] == s[j]
    ensures forall j :: i <= j < |r| ==> r[j] == s[j + 1]
  {
    s[..i] + s[i + 1..]
  }

  /**
   * Removes the first entry carrying `id`; a stack without it is returned as
   * it is. The entries before the removed one never carry `id`.
   */
  function Remove(ids: seq<string>, id: string): (r: seq<string>)
    ensures id !in ids ==> r == ids
    ensures id in ids ==> |r| == |ids| - 1
    ensures id in ids ==>
      exists i :: 0 <= i < |ids| && ids[i] == id && id !in ids[..i] && r == ids[..i] + ids[i + 1..]
  {
    var i := IndexOf(ids, id);
    if i == -1 then ids else Splice(ids, i)
  }

  /** The reference meaning of "take `id` off the stack": every other id, in the original order. */
  function Without(ids: seq<string>, id: string): seq<string> {
    if |ids| == 0 then []
    else if ids[0] == id then Without(ids[1..], id)
    else [ids[0]] + Without(ids[1..], id)
  }

  function Top(ids: seq<string>): string
    requires |ids| > 0
  {
    ids[|ids| - 1]
  }

  /** The stack read from the top down. */
  function Reverse(ids: seq<string>): (r: seq<string>)
    ensures |r| == |ids|
    ensures forall i :: 0 <= i < |ids| ==> r[i] == ids[|ids| - 1 - i]
  {
    if |ids| == 0 then [] else [Top(ids)] + Reverse(ids[..|ids| - 1])
  }

  /** Reading top down: first the top, then the rest of the stack top down. */
  lemma ReverseTail(ids: seq<string>, k: nat)
    requires 0 < k <= |ids|
    ensures Reverse(ids)[..k] == [Top(ids)] + Reverse(ids[..|ids| - 1])[..k - 1]
  {
    var rest := Reverse(ids[..|ids| - 1]);
    assert Reverse(ids) == [Top(ids)] + rest;
    assert ([Top(ids)] + rest)[..k] == [Top(ids)] + rest[..k - 1];
  }

  lemma {:induction false} WithoutMembers(ids: seq<string>, id: string, x: string)
    ensures x in Without(ids, id) <==> x in ids && x != id
    decreases |ids|
  {
    if |ids| > 0 {
      WithoutMembers(ids[1..], id, x);
      assert ids == [ids[0]] + ids[1..];
    }
  }

  /**
   * On a stack without duplicates, removing an id takes out exactly that id
   * and keeps every other entry in its relative order.
   */
  lemma {:induction false} RemoveIsWithout(ids: seq<string>, id: string)
    requires Distinct(ids)
    ensures Remove(ids, id) == Without(ids, id)
    decreases |ids|
  {
    if |ids| == 0 {
    } else if ids[0] == id {
      assert id !in ids[1..];
      WithoutAbsent(ids[1..], id);
    } else {
      RemoveIsWithout(ids[1..], id);
      if id in ids[1..] {
        var k := IndexOf(ids[1..], id);
        assert IndexOf(ids, id) == k + 1;
        assert Splice(ids, k + 1) == [ids[0]] + Splice(ids[1..], k);
      } else {
        WithoutAbsent(ids[1..], id);
      }
    }
  }

  lemma {:induction false} WithoutAbsent(ids: seq<string>, id: string)
    requires id !in ids
    ensures Without(ids, id) == ids
    decreases |ids|
  {
    if |ids| > 0 {
      WithoutAbsent(ids[1..], id);
      assert ids == [ids[0]] + ids[1..];
    }
  }

  /** The ids on the stack, as a set. */
  function Elems(ids: seq<string>): set<string> {
    set x | x in ids
  }

  /** Removing an id keeps a duplicate-free stack duplicate-free and takes exactly that id out. */
  lemma RemoveDistinct(ids: seq<string>, id: string)
    requires Distinct(ids)
    ensures Distinct(Remove(ids, id))
    ensures Elems(Remove(ids, id)) == Elems(ids) - {id}
  {
    var i := IndexOf(ids, id);
    if i != -1 {
      var r := Splice(ids, i);
      forall x | x in r ensures x in ids && x != id {
        var j :| 0 <= j < |r| && r[j] == x;
        if j < i { assert r[j] == ids[j]; } else { assert r[j] == ids[j + 1]; }
      }
      forall x | x in ids && x != id ensures x in r {
        var j :| 0 <= j < |ids| && ids[j] == x;
        if j < i { assert r[j] == x; } else { assert r[j - 1] == x; }
      }
    }
  }

  /** Closing the top id takes one entry off; on a duplicate-free stack it pops the stack. */
  lemma RemoveTop(ids: seq<string>)
    requires |ids| > 0
    ensures |Remove(ids, Top(ids))| == |ids| - 1
    ensures Distinct(ids) ==> Remove(ids, Top(ids)) == ids[..|ids| - 1]
  {
    assert ids[|ids| - 1] == Top(ids);
    if Distinct(ids) {
      assert IndexOf(ids, Top(ids)) == |ids| - 1;
    }
  }

  /** Closing the sheet just pushed gives back the stack before the push. */
  lemma RemovePushed(ids: seq<string>, id: string)
    requires id !in ids
    ensures Remove(ids + [id], id) == ids
  {
    assert IndexOf(ids + [id], id) == |ids|;
    assert (ids + [id])[..|ids|] == ids;
  }

  lemma DistinctPrefix(ids: seq<string>, n: nat)
    requires Distinct(ids) && n <= |ids|
    ensures Distinct(ids[..n])
  {
  }

  lemma DistinctPush(ids: seq<string>, id: string)
    requires Distinct(ids) && id !in ids
    ensures Distinct(ids + [id])
  {
  }
}

=== FILE: template_sheets.dfy ===
/**
 * The template-cloning variant of the action-sheet controller
 * (src/scripts/sheet.js). Opening a sheet looks up a template registered
 * under its id, builds a fresh backdrop and panel for it, layers them by the
 * depth of the stack and gives the panel its own swipe recogniser; closing
 * takes the sheet off the stack at once and destroys its nodes after the exit
 * animation.
 *
 * The page's templates are the set of registered ids. A stack entry keeps
 * what matters of the built nodes: the depth the sheet was opened at (its
 * backdrop's z-index is `LayerZ(level)`, its panel's one above) and the
 * recogniser. Entries go when their sheet closes, and so does all of this.
 */
module TemplateSheets {
  import opened SheetStack
  import opened PageEvents
  import Gesture

  datatype Entry = Entry(id: string, level: nat, drag: Gesture.DragState)

  datatype State = State(templates: set<string>, stack: seq<Entry>)

  function Init(templates: set<string>): State {
    State(templates, [])
  }

  /** The z-index written on an entry's backdrop. */
  function BackdropZ(e: Entry): int {
    LayerZ(e.level)
  }

  /** The z-index written on an entry's panel, directly above its backdrop. */
  function PanelZ(e: Entry): int {
    LayerZ(e.level) + 1
  }

  /** The ids on the stack, bottom first. */
  function Ids(stack: seq<Entry>): (ids: seq<string>)
    ensures |ids| == |stack|
    ensures forall i :: 0 <= i < |stack| ==> ids[i] == stack[i].id
  {
    seq(|stack|, i requires 0 <= i < |stack| => stack[i].id)
  }

  /** The invariant every reachable controller state keeps. */
  ghost predicate Valid(s: State) {
    && Distinct(Ids(s.stack))
    && forall i :: 0 <= i < |s.stack| ==>
         && s.stack[i].id in s.templates
         && i <= s.stack[i].level
         && Gesture.Coherent(s.stack[i].drag)
  }

  /**
   * `ActionSheet.open(id)`: nothing without a template (a warning is logged),
   * nothing when the sheet is already open; otherwise a new sheet on top,
   * opened at the current depth, with a fresh recogniser.
   */
  function Open(s: State, id: string): (r: State)
    ensures id !in s.templates ==> r == s
    ensures id in Ids(s.stack) ==> r == s
    ensures id in s.templates && id !in Ids(s.stack) ==>
      && r.templates == s.templates
      && r.stack == s.stack + [Entry(id, |s.stack|, Gesture.Idle)]
      && BackdropZ(r.stack[|s.stack|]) == BaseZ + |s.stack| * ZStep
      && PanelZ(r.stack[|s.stack|]) == BaseZ + |s.stack| * ZStep + 1
  {
    if id !in s.templates then s
    else if IndexOf(Ids(s.stack), id) != -1 then s
    else
      var depth := |s.stack|;
      s.(stack := s.stack + [Entry(id, depth, Gesture.Idle)])
  }

  /** `ActionSheet.close(id)`: nothing when the sheet is not open; otherwise its entry leaves the stack. */
  function Close(s: State, id: string): (r: State)
    ensures id !in Ids(s.stack) ==> r == s
    ensures id in Ids(s.stack) ==> |r.stack| == |s.stack| - 1
    ensures r.templates == s.templates
  {
    var i := IndexOf(Ids(s.stack), id);
    if i == -1 then s else s.(stack := Splice(s.stack, i))
  }

  /** Closes the given ids one after the other, first id first; the templates stay registered. */
  function CloseEach(s: State, ids: seq<string>): (r: State)
    ensures r.templates == s.templates
    decreases |ids|
  {
    if |ids| == 0 then s else CloseEach(Close(s, ids[0]), ids[1..])
  }

  /**
   * `ActionSheet.closeAll()`: a close for every open sheet, over a snapshot
   * read top down. On a duplicate-free stack nothing is left open.
   */
  function CloseAll(s: State): (r: State)
    ensures r.templates == s.templates
    ensures Distinct(Ids(s.stack)) ==> r == s.(stack := [])
  {
    CloseAllEmpties(s);
    CloseEach(s, Reverse(Ids(s.stack)))
  }

  /**
   * The keydown listener: Escape closes the top sheet, if there is one; on a
   * duplicate-free stack that pops the stack.
   */
  function OnKeyDown(s: State, key: string): (r: State)
    ensures key != EscapeKey || |s.stack| == 0 ==> r == s
    ensures key == EscapeKey && |s.stack| > 0 ==> r.templates == s.templates && |r.stack| == |s.stack| - 1
    ensures key == EscapeKey && |s.stack| > 0 && Distinct(Ids(s.stack)) ==>
      r == s.(stack := s.stack[..|s.stack| - 1])
  {
    if key == EscapeKey && |s.stack| > 0 then
      CloseTopPops(s);
      Close(s, s.stack[|s.stack| - 1].id)
    else s
  }

  /**
   * The document click listener: an open marker opens, then a close marker
   * closes. A control marked to open and close the same sheet that is not
   * open leaves the page as it was.
   */
  function OnClick(s: State, opener: Marker, closer: Marker): (r: State)
    ensures r.templates == s.templates
    ensures opener.NoMarker? && closer.NoMarker? ==> r == s
    ensures opener.Marker? && closer.NoMarker? ==> r == Open(s, opener.id)
    ensures opener.NoMarker? && closer.Marker? ==> r == Close(s, closer.id)
    ensures opener.Marker? && closer == opener && opener.id !in Ids(s.stack) ==> r == s
  {
    var s1 := if opener.Marker? then Open(s, opener.id) else s;
    if closer.Marker? then
      CloseUndoesOpen(s, closer.id);
      Close(s1, closer.id)
    else s1
  }

  /** The state with the recogniser of the entry at `i` replaced, and nothing else changed. */
  function WithDrag(s: State, i: nat, d: Gesture.DragState): (r: State)
    requires i < |s.stack|
    ensures r.templates == s.templates
    ensures Ids(r.stack) == Ids(s.stack)
    ensures r.stack[i] == s.stack[i].(drag := d)
    ensures forall j :: 0 <= j < |s.stack| && j != i ==> r.stack[j] == s.stack[j]
    ensures d == s.stack[i].drag ==> r == s
  {
    assert d == s.stack[i].drag ==> s.stack[i := s.stack[i].(drag := d)] == s.stack;
    s.(stack := s.stack[i := s.stack[i].(drag := d)])
  }

  /**
   * A press on an open sheet goes to its recogniser only: no sheet opens or
   * closes, and every other entry stays as it was. A press off the handle,
   * or on a sheet that is not open, changes nothing.
   */
  function OnPress(s: State, id: string, y: real, target: Gesture.Target, now: int): (r: State)
    ensures r.templates == s.templates && Ids(r.stack) == Ids(s.stack)
    ensures forall j :: 0 <= j < |s.stack| && s.stack[j].id != id ==> r.stack[j] == s.stack[j]
    ensures target != Gesture.Handle || id !in Ids(s.stack) ==> r == s
    ensures target == Gesture.Handle && id in Ids(s.stack) ==>
      exists j :: 0 <= j < |r.stack| && r.stack[j].id == id && r.stack[j].drag.dragging
    ensures id in Ids(s.stack) ==>
      var i := IndexOf(Ids(s.stack), id);
      r.stack[i].drag == Gesture.OnStart(s.stack[i].drag, y, target, now)
  {
    var i := IndexOf(Ids(s.stack), id);
    if i == -1 then s else WithDrag(s, i, Gesture.OnStart(s.stack[i].drag, y, target, now))
  }

  /**
   * A move on an open sheet goes to its recogniser only, which takes its
   * sample. Unless that sheet is being dragged, nothing changes.
   */
  function OnSlide(s: State, id: string, y: real, now: int): (r: State)
    ensures r.templates == s.templates && Ids(r.stack) == Ids(s.stack)
    ensures id in Ids(s.stack) ==>
      var i := IndexOf(Ids(s.stack), id);
      r.stack[i].drag == Gesture.OnMove(s.stack[i].drag, y, now)
    ensures forall j :: 0 <= j < |s.stack| && s.stack[j].id != id ==> r.stack[j] == s.stack[j]
    ensures (forall j :: 0 <= j < |s.stack| && s.stack[j].id == id ==> !s.stack[j].drag.dragging) ==> r == s
  {
    var i := IndexOf(Ids(s.stack), id);
    if i == -1 then s else WithDrag(s, i, Gesture.OnMove(s.stack[i].drag, y, now))
  }

  /**
   * Lift: the recogniser decides, and a dismissal closes this sheet. Unless
   * that sheet is being dragged, nothing changes; otherwise at most one sheet
   * leaves the stack, and on a duplicate-free stack no entry of this sheet
   * is still dragging afterwards.
   */
  function OnLift(s: State, id: string, y: real, height: nat): (r: State)
    ensures r.templates == s.templates
    ensures |r.stack| == |s.stack| || |r.stack| == |s.stack| - 1
    ensures Distinct(Ids(s.stack)) ==>
      forall j :: 0 <= j < |r.stack| && r.stack[j].id == id ==> !r.stack[j].drag.dragging
    ensures forall e :: e in s.stack && e.id != id ==> e in r.stack
    ensures id in Ids(s.stack) ==>
      var i := IndexOf(Ids(s.stack), id);
      var verdict := Gesture.OnEnd(s.stack[i].drag, y, height);
      !verdict.dismiss ==> |r.stack| == |s.stack| && r.stack[i].drag == verdict.after
    ensures (forall j :: 0 <= j < |s.stack| && s.stack[j].id == id ==> !s.stack[j].drag.dragging) ==> r == s
  {
    var i := IndexOf(Ids(s.stack), id);
    if i == -1 then s else LiftAt(s, i, y, height)
  }

  /** The lift as the entry at `i` receives it: its recogniser decides, and a dismissal closes its sheet. */
  function LiftAt(s: State, i: nat, y: real, height: nat): (r: State)
    requires i < |s.stack|
    ensures r.templates == s.templates
    ensures |r.stack| == |s.stack| || |r.stack| == |s.stack| - 1
    ensures Distinct(Ids(s.stack)) ==>
      forall j :: 0 <= j < |r.stack| && r.stack[j].id == s.stack[i].id ==> !r.stack[j].drag.dragging
    ensures forall e :: e in s.stack && e.id != s.stack[i].id ==> e in r.stack
    ensures var verdict := Gesture.OnEnd(s.stack[i].drag, y, height);
      !verdict.dismiss ==> |r.stack| == |s.stack| && r.stack[i].drag == verdict.after
    ensures !s.stack[i].drag.dragging ==> r == s
  {
    var id := s.stack[i].id;
    var verdict := Gesture.OnEnd(s.stack[i].drag, y, height);
    var s1 := WithDrag(s, i, verdict.after);
    WithDragKeepsOthers(s, i, verdict.after);
    if verdict.dismiss then
      CloseDistinctGone(s1, id);
      CloseKeepsOthers(s1, id);
      Close(s1, id)
    else s1
  }

  function Step(s: State, e: Event): State {
    match e
    case OpenCall(id) => Open(s, id)
    case CloseCall(id) => Close(s, id)
    case CloseAllCall => CloseAll(s)
    case KeyDown(key) => OnKeyDown(s, key)
    case Click(opener, closer) => OnClick(s, opener, closer)
    case BackdropClick(id) => Close(s, id)
    case Press(id, y, target, at) => OnPress(s, id, y, target, at)
    case Slide(id, y, at) => OnSlide(s, id, y, at)
    case Lift(id, y, height) => OnLift(s, id, y, height)
  }

  function Run(s: State, events: seq<Event>): State
    decreases |events|
  {
    if |events| == 0 then s else Run(Step(s, events[0]), events[1..])
  }

  /** Opens the given ids one after the other, first id first. */
  function OpenEach(s: State, ids: seq<string>): State
    decreases |ids|
  {
    if |ids| == 0 then s
    else Open(OpenEach(s, ids[..|ids| - 1]), ids[|ids| - 1])
  }

  // ---------------------------------------------------------------- stack of entries

  lemma IdsPush(stack: seq<Entry>, e: Entry)
    ensures Ids(stack + [e]) == Ids(stack) + [e.id]
  {
  }

  lemma IdsSplice(stack: seq<Entry>, i: nat)
    requires i < |stack|
    ensures Ids(Splice(stack, i)) == Splice(Ids(stack), i)
  {
  }

  lemma IdsPrefix(stack: seq<Entry>, n: nat)
    requires n <= |stack|
    ensures Ids(stack[..n]) == Ids(stack)[..n]
  {
  }

  /** Replacing one entry's recogniser keeps every entry of another sheet. */
  lemma WithDragKeepsOthers(s: State, i: nat, d: Gesture.DragState)
    requires i < |s.stack|
    ensures forall e :: e in s.stack && e.id != s.stack[i].id ==> e in WithDrag(s, i, d).stack
  {
    var r := WithDrag(s, i, d);
    forall e | e in s.stack && e.id != s.stack[i].id ensures e in r.stack {
      var j :| 0 <= j < |s.stack| && s.stack[j] == e;
      assert r.stack[j] == e;
    }
  }

  /** Closing a sheet keeps every entry of every other sheet. */
  lemma CloseKeepsOthers(s: State, id: string)
    ensures forall e :: e in s.stack && e.id != id ==> e in Close(s, id).stack
  {
    var i := IndexOf(Ids(s.stack), id);
    if i != -1 {
      var r := Close(s, id);
      forall e | e in s.stack && e.id != id ensures e in r.stack {
        var j :| 0 <= j < |s.stack| && s.stack[j] == e;
        assert j != i;
        if j < i { assert r.stack[j] == e; } else { assert r.stack[j - 1] == e; }
      }
    }
  }

  /** On a duplicate-free stack, closing a sheet leaves no entry of it behind. */
  lemma CloseDistinctGone(s: State, id: string)
    ensures Distinct(Ids(s.stack)) ==> id !in Ids(Close(s, id).stack)
  {
    var i := IndexOf(Ids(s.stack), id);
    if Distinct(Ids(s.stack)) && i != -1 {
      IdsSplice(s.stack, i);
      RemoveDistinct(Ids(s.stack), id);
    }
  }

  // ---------------------------------------------------------------- invariant

  lemma InitValid(templates: set<string>)
    ensures Valid(Init(templates))
  {
  }

  lemma OpenValid(s: State, id: string)
    requires Valid(s)
    ensures Valid(Open(s, id))
  {
    if id in s.templates && id !in Ids(s.stack) {
      IdsPush(s.stack, Entry(id, |s.stack|, Gesture.Idle));
      DistinctPush(Ids(s.stack), id);
    }
  }

  /**
   * Closing an open sheet removes exactly its entry: the entries below keep
   * their places, those above move down one, all in their original order and
   * with their layers and recognisers; the ids left are every other id.
   */
  lemma CloseRemovesExactly(s: State, id: string)
    requires Valid(s)
    ensures id in Ids(s.stack) ==>
      exists i :: 0 <= i < |s.stack| && s.stack[i].id == id && Close(s, id).stack == s.stack[..i] + s.stack[i + 1..]
    ensures Ids(Close(s, id).stack) == Without(Ids(s.stack), id)
    ensures id !in Ids(Close(s, id).stack)
    ensures Valid(Close(s, id))
  {
    RemoveIsWithout(Ids(s.stack), id);
    RemoveDistinct(Ids(s.stack), id);
    var i := IndexOf(Ids(s.stack), id);
    if i != -1 {
      var r := Close(s, id);
      IdsSplice(s.stack, i);
      assert r.stack == s.stack[..i] + s.stack[i + 1..];
      forall j | 0 <= j < |r.stack| ensures j <= r.stack[j].level {
        if j >= i {
          assert r.stack[j] == s.stack[j + 1];
        }
      }
    }
  }

  /** Escape closes the top sheet and no other; on an empty stack, or for another key, nothing happens. */
  lemma EscapeClosesOnlyTop(s: State, key: string)
    requires Valid(s)
    ensures key == EscapeKey && |s.stack| > 0 ==> OnKeyDown(s, key).stack == s.stack[..|s.stack| - 1]
    ensures key != EscapeKey || |s.stack| == 0 ==> OnKeyDown(s, key) == s
    ensures Valid(OnKeyDown(s, key))
  {
    if key == EscapeKey && |s.stack| > 0 {
      var n := |s.stack|;
      assert s.stack[n - 1].id == Top(Ids(s.stack));
      assert IndexOf(Ids(s.stack), Top(Ids(s.stack))) == n - 1;
      CloseRemovesExactly(s, Top(Ids(s.stack)));
    }
  }

  /** Closing the top sheet takes one entry off; on a duplicate-free stack it pops the stack. */
  lemma CloseTopPops(s: State)
    requires |s.stack| > 0
    ensures |Close(s, s.stack[|s.stack| - 1].id).stack| == |s.stack| - 1
    ensures Distinct(Ids(s.stack)) ==>
      && Close(s, s.stack[|s.stack| - 1].id) == s.(stack := s.stack[..|s.stack| - 1])
      && Distinct(Ids(s.stack[..|s.stack| - 1]))
  {
    var n := |s.stack|;
    var ids := Ids(s.stack);
    assert ids[n - 1] == s.stack[n - 1].id;
    if Distinct(ids) {
      assert IndexOf(ids, ids[n - 1]) == n - 1;
      assert Splice(s.stack, n - 1) == s.stack[..n - 1];
      IdsPrefix(s.stack, n - 1);
      DistinctPrefix(ids, n - 1);
    }
  }

  /** The first close of closeAll's snapshot pops the top, and the rest of the snapshot is the popped stack's. */
  lemma CloseAllFirstStep(s: State, k: nat)
    requires Distinct(Ids(s.stack)) && 0 < k <= |s.stack|
    ensures var t := s.(stack := s.stack[..|s.stack| - 1]);
      && Distinct(Ids(t.stack))
      && CloseEach(s, Reverse(Ids(s.stack))[..k]) == CloseEach(t, Reverse(Ids(t.stack))[..k - 1])
  {
    var n := |s.stack|;
    var xs := Reverse(Ids(s.stack))[..k];
    CloseTopPops(s);
    ReverseTail(Ids(s.stack), k);
    IdsPrefix(s.stack, n - 1);
    assert xs[0] == s.stack[n - 1].id;
  }

  /**
   * closeAll works topmost first: after its first `k` closes exactly the `k`
   * top sheets are gone, and the sheets below are untouched.
   */
  lemma {:induction false} CloseAllTopmostFirst(s: State, k: nat)
    requires Distinct(Ids(s.stack)) && k <= |s.stack|
    ensures CloseEach(s, Reverse(Ids(s.stack))[..k]) == s.(stack := s.stack[..|s.stack| - k])
    decreases k
  {
    var n := |s.stack|;
    if k == 0 {
      assert Reverse(Ids(s.stack))[..0] == [];
      assert s.stack[..n] == s.stack;
    } else {
      var t := s.(stack := s.stack[..n - 1]);
      CloseAllFirstStep(s, k);
      CloseAllTopmostFirst(t, k - 1);
      assert t.stack[..n - 1 - (k - 1)] == s.stack[..n - k];
      calc {
        CloseEach(s, Reverse(Ids(s.stack))[..k]);
        CloseEach(t, Reverse(Ids(t.stack))[..k - 1]);
        t.(stack := t.stack[..n - 1 - (k - 1)]);
        s.(stack := s.stack[..n - k]);
      }
    }
  }

  /** Closing the whole top-down snapshot of a duplicate-free stack leaves no sheet open and changes nothing else. */
  lemma CloseAllEmpties(s: State)
    ensures Distinct(Ids(s.stack)) ==> CloseEach(s, Reverse(Ids(s.stack))) == s.(stack := [])
  {
    if Distinct(Ids(s.stack)) {
      CloseAllTopmostFirst(s, |s.stack|);
      assert Reverse(Ids(s.stack))[..|s.stack|] == Reverse(Ids(s.stack));
    }
  }

  lemma ClickValid(s: State, opener: Marker, closer: Marker)
    requires Valid(s)
    ensures Valid(OnClick(s, opener, closer))
  {
    var s1 := if opener.Marker? then Open(s, opener.id) else s;
    if opener.Marker? {
      OpenValid(s, opener.id);
    }
    if closer.Marker? {
      CloseRemovesExactly(s1, closer.id);
    }
  }

  lemma WithDragValid(s: State, i: nat, d: Gesture.DragState)
    requires Valid(s) && i < |s.stack| && Gesture.Coherent(d)
    ensures Valid(WithDrag(s, i, d))
  {
  }

  lemma GestureValid(s: State, e: Event)
    requires Valid(s) && (e.Press? || e.Slide? || e.Lift?)
    ensures Valid(Step(s, e))
  {
    var i := IndexOf(Ids(s.stack), e.sheet);
    if i != -1 {
      var d := s.stack[i].drag;
      match e
      case Press(_, y, target, at) => WithDragValid(s, i, Gesture.OnStart(d, y, target, at));
      case Slide(_, y, at) => WithDragValid(s, i, Gesture.OnMove(d, y, at));
      case Lift(id, y, height) =>
        var verdict := Gesture.OnEnd(d, y, height);
        WithDragValid(s, i, verdict.after);
        CloseRemovesExactly(WithDrag(s, i, verdict.after), id);
    }
  }

  lemma StepValid(s: State, e: Event)
    requires Valid(s)
    ensures Valid(Step(s, e))
  {
    match e
    case OpenCall(id) => OpenValid(s, id);
    case CloseCall(id) => CloseRemovesExactly(s, id);
    case CloseAllCall =>
    case KeyDown(key) => EscapeClosesOnlyTop(s, key);
    case Click(opener, closer) => ClickValid(s, opener, closer);
    case BackdropClick(id) => CloseRemovesExactly(s, id);
    case Press(_, _, _, _) => GestureValid(s, e);
    case Slide(_, _, _) => GestureValid(s, e);
    case Lift(_, _, _) => GestureValid(s, e);
  }

  /**
   * Whatever the page does, no sheet is ever open twice, every open sheet has
   * a template, none sits below the layer of its position, and no recogniser
   * shows an offset outside a drag.
   */
  lemma {:induction false} RunValid(s: State, events: seq<Event>)
    requires Valid(s)
    ensures Valid(Run(s, events))
    decreases |events|
  {
    if |events| > 0 {
      StepValid(s, events[0]);
      RunValid(Step(s, events[0]), events[1..]);
    }
  }

  // ---------------------------------------------------------------- open

  /** Opening twice is opening once. */
  lemma OpenIdempotent(s: State, id: string)
    ensures Open(Open(s, id), id) == Open(s, id)
  {
    if id in s.templates && id !in Ids(s.stack) {
      IdsPush(s.stack, Entry(id, |s.stack|, Gesture.Idle));
    }
  }

  /** Closing a sheet just opened restores the controller exactly; so does closing one that could not open. */
  lemma CloseUndoesOpen(s: State, id: string)
    ensures id !in Ids(s.stack) ==> Close(Open(s, id), id) == s
  {
    if id in s.templates && id !in Ids(s.stack) {
      var e := Entry(id, |s.stack|, Gesture.Idle);
      IdsPush(s.stack, e);
      RemovePushed(Ids(s.stack), id);
      assert IndexOf(Ids(s.stack + [e]), id) == |s.stack|;
      assert Splice(s.stack + [e], |s.stack|) == s.stack;
    }
  }

  /**
   * Opening distinct registered sheets one after another stacks them in that
   * order, each opened at the depth of its position.
   */
  lemma {:induction false} OpenInOrder(templates: set<string>, ids: seq<string>)
    requires Distinct(ids)
    requires forall i :: 0 <= i < |ids| ==> ids[i] in templates
    ensures OpenEach(Init(templates), ids).templates == templates
    ensures Ids(OpenEach(Init(templates), ids).stack) == ids
    ensures forall i :: 0 <= i < |ids| ==> OpenEach(Init(templates), ids).stack[i].level == i
    decreases |ids|
  {
    if |ids| > 0 {
      var n := |ids|;
      var front := ids[..n - 1];
      OpenInOrder(templates, front);
      var before := OpenEach(Init(templates), front);
      assert ids[n - 1] !in front && ids[n - 1] in templates;
      var e := Entry(ids[n - 1], n - 1, Gesture.Idle);
      IdsPush(before.stack, e);
      assert OpenEach(Init(templates), ids).stack == before.stack + [e];
      assert ids == front + [ids[n - 1]];
    }
  }

  /**
   * Open-only: the first backdrop is at the base layer, each next one a step
   * higher, and every later sheet (backdrop and panel) lies wholly above every
   * earlier one.
   */
  lemma OpenOnlyLayersRise(templates: set<string>, ids: seq<string>)
    requires Distinct(ids)
    requires forall i :: 0 <= i < |ids| ==> ids[i] in templates
    ensures var r := OpenEach(Init(templates), ids);
      && Ids(r.stack) == ids
      && (forall i :: 0 <= i < |ids| ==> BackdropZ(r.stack[i]) == BaseZ + i * ZStep)
      && (forall i, j :: 0 <= i < j < |ids| ==> PanelZ(r.stack[i]) < BackdropZ(r.stack[j]))
  {
    OpenInOrder(templates, ids);
    var r := OpenEach(Init(templates), ids);
    forall i, j | 0 <= i < j < |ids| ensures PanelZ(r.stack[i]) < BackdropZ(r.stack[j]) {
      LayerZIncreasing(i, j);
    }
  }

  /** The stack of the layering example after "a", "b" and "c" are opened. */
  lemma OpenThree(templates: set<string>)
    requires "a" in templates && "b" in templates && "c" in templates
    ensures Run(Init(templates), [OpenCall("a"), OpenCall("b"), OpenCall("c")])
         == State(templates, [Entry("a", 0, Gesture.Idle), Entry("b", 1, Gesture.Idle), Entry("c", 2, Gesture.Idle)])
  {
    var events := [OpenCall("a"), OpenCall("b"), OpenCall("c")];
    var s1 := State(templates, [Entry("a", 0, Gesture.Idle)]);
    var s2 := State(templates, [Entry("a", 0, Gesture.Idle), Entry("b", 1, Gesture.Idle)]);
    var s3 := State(templates, [Entry("a", 0, Gesture.Idle), Entry("b", 1, Gesture.Idle), Entry("c", 2, Gesture.Idle)]);
    assert Ids(s1.stack) == ["a"];
    assert Ids(s2.stack) == ["a", "b"];
    assert Open(Init(templates), "a") == s1;
    assert Open(s1, "b") == s2;
    assert Open(s2, "c") == s3;
    assert Run(s2, events[2..]) == s3;
    assert Run(s1, events[1..]) == s3;
  }

  /** The same stack after "a" and "b" are closed again and "d" is opened. */
  lemma CloseTwoOpenOne(templates: set<string>)
    requires "d" in templates
    ensures Run(State(templates, [Entry("a", 0, Gesture.Idle), Entry("b", 1, Gesture.Idle), Entry("c", 2, Gesture.Idle)]),
                [CloseCall("a"), CloseCall("b"), OpenCall("d")])
         == State(templates, [Entry("c", 2, Gesture.Idle), Entry("d", 1, Gesture.Idle)])
  {
    var events := [CloseCall("a"), CloseCall("b"), OpenCall("d")];
    var s3 := State(templates, [Entry("a", 0, Gesture.Idle), Entry("b", 1, Gesture.Idle), Entry("c", 2, Gesture.Idle)]);
    var s4 := State(templates, [Entry("b", 1, Gesture.Idle), Entry("c", 2, Gesture.Idle)]);
    var s5 := State(templates, [Entry("c", 2, Gesture.Idle)]);
    var s6 := State(templates, [Entry("c", 2, Gesture.Idle), Entry("d", 1, Gesture.Idle)]);
    assert Ids(s3.stack) == ["a", "b", "c"];
    assert Ids(s4.stack) == ["b", "c"];
    assert Ids(s5.stack) == ["c"];
    assert Step(s3, CloseCall("a")) == Close(s3, "a") == s4;
    assert Step(s4, CloseCall("b")) == Close(s4, "b") == s5;
    assert Step(s5, OpenCall("d")) == Open(s5, "d") == s6;
    assert events[2..] == [OpenCall("d")] && events[1..] == [CloseCall("b"), OpenCall("d")];
    assert Run(s6, []) == s6;
    assert Run(s5, events[2..]) == s6;
    assert Run(s4, events[1..]) == s6;
  }

  lemma {:induction false} RunAppend(s: State, xs: seq<Event>, ys: seq<Event>)
    ensures Run(s, xs + ys) == Run(Run(s, xs), ys)
    decreases |xs|
  {
    if |xs| > 0 {
      assert (xs + ys)[0] == xs[0];
      assert (xs + ys)[1..] == xs[1..] + ys;
      RunAppend(Step(s, xs[0]), xs[1..], ys);
    } else {
      assert xs + ys == ys;
    }
  }

  /**
   * Layering depends on the depth at opening time only: after the two lower of
   * three sheets close, a newly opened fourth sheet is on top of the stack but
   * is layered below the sheet still open beneath it.
   */
  lemma LayeringAfterCloses()
    ensures var s := Run(Init({"a", "b", "c", "d"}),
                         [OpenCall("a"), OpenCall("b"), OpenCall("c"), CloseCall("a"), CloseCall("b"), OpenCall("d")]);
      && Ids(s.stack) == ["c", "d"]
      && BackdropZ(s.stack[1]) == 210 && BackdropZ(s.stack[0]) == 220
  {
    var templates := {"a", "b", "c", "d"};
    var opens := [OpenCall("a"), OpenCall("b"), OpenCall("c")];
    var rest := [CloseCall("a"), CloseCall("b"), OpenCall("d")];
    OpenThree(templates);
    CloseTwoOpenOne(templates);
    RunAppend(Init(templates), opens, rest);
    assert opens + rest == [OpenCall("a"), OpenCall("b"), OpenCall("c"), CloseCall("a"), CloseCall("b"), OpenCall("d")];
    assert Ids([Entry("c", 2, Gesture.Idle), Entry("d", 1, Gesture.Idle)]) == ["c", "d"];
  }

  /**
   * A page opens "terms" (layer 200), then "cookies" (layer 210); Escape
   * closes "cookies"; closing "terms" empties the stack.
   */
  lemma TermsCookiesScenario()
    ensures var s1 := Open(Init({"terms", "cookies"}), "terms");
      var s2 := Open(s1, "cookies");
      var s3 := OnKeyDown(s2, EscapeKey);
      var s4 := Close(s3, "terms");
      && Ids(s1.stack) == ["terms"] && BackdropZ(s1.stack[0]) == 200
      && Ids(s2.stack) == ["terms", "cookies"] && BackdropZ(s2.stack[1]) == 210
      && Ids(s3.stack) == ["terms"]
      && s4.stack == []
  {
    var s1 := Open(Init({"terms", "cookies"}), "terms");
    assert Ids(s1.stack) == ["terms"];
    var s2 := Open(s1, "cookies");
    assert Ids(s2.stack) == ["terms", "cookies"];
    assert IndexOf(Ids(s2.stack), "cookies") == 1;
    var s3 := OnKeyDown(s2, EscapeKey);
    assert s3.stack == s2.stack[..1];
    assert Ids(s3.stack) == ["terms"];
    assert IndexOf(Ids(s3.stack), "terms") == 0;
  }

  // ---------------------------------------------------------------- gestures

  /** A lift closes its sheet exactly when the recogniser's dismiss rule holds, and closes nothing else. */
  lemma ReleaseClosesIff(s: State, k: nat, y: real, height: nat)
    requires Valid(s) && k < |s.stack|
    ensures var d := s.stack[k].drag;
      var r := OnLift(s, s.stack[k].id, y, height);
      && (s.stack[k].id !in Ids(r.stack) <==> d.dragging && Gesture.ShouldDismiss(y - d.startY, d.velocity, height))
      && (Ids(r.stack) == Ids(s.stack) || Ids(r.stack) == Without(Ids(s.stack), s.stack[k].id))
  {
    var id := s.stack[k].id;
    var i := IndexOf(Ids(s.stack), id);
    assert i == k;
    var verdict := Gesture.OnEnd(s.stack[k].drag, y, height);
    var s1 := WithDrag(s, k, verdict.after);
    WithDragValid(s, k, verdict.after);
    CloseRemovesExactly(s1, id);
  }
}
